=== FILE: README.md ===
# Simulated-annealing TSP solver: a Dafny model

This project models the algorithmic core of a simulated-annealing solver for
the Travelling Salesman Problem, and proves properties of that model.

- **Tour state** (`tsp_state.py`). A `TSPState` holds a path: a list of cities
  that starts and ends at the start city. It also memoises the path's cost.
  The successor move is a random 2-opt step, which reverses an interior
  segment of the path. `isGoalState` recognises closed tours of all cities.
- **Helper** (`tsp_helper.py`). `TSPHelper` chooses the start city.
  `getGreedyTour` builds the nearest-neighbour seed tour and its cost.
- **Schedule** (`schedule.py`). `ExponentialSchedule` gives the temperature
  `T0 * alpha^t`, rounded up to two decimals.
- **Annealing** (`anneal.py`). A `Problem` is the run record.
  `simulated_annealing` runs 9999 steps of Metropolis acceptance, and
  `acceptWithProbabilty` is the probabilistic test.

The model has one Dafny module per source file: `TspState`, `TspHelper`,
`Schedule` and `Anneal`. Two more modules support them. `Types` holds the
`Option`/`Result` values and the Python exceptions the code can raise. `Tour`
holds the pure tour vocabulary: the path cost, the closed-tour predicate,
segment reversal, and chains of 2-opt moves.

Values are immutable. A Python method that updates its object in place
returns the updated object here. For example, `GetValue` returns the state
with its memo filled, and `GetTemperature` returns the schedule with its last
temperature stored. Everything the code cannot compute by itself is a
parameter:

- the distance table (`tsp_data.py`, which is not part of this model) is a
  function `(City, City) -> real`;
- the "nearest city" choice of `getDistancesFromCity` is a selector
  `(City, seq<City>) -> City`;
- `math.exp` is a function `real -> real`;
- the outputs of `random.randint` and `random.random` are sequences of draws,
  one entry per step.

Costs and temperatures are mathematical reals.

## Model

| member | source | states |
|---|---|---|
| `Tour.TwoOpt` | tsp_state.py:54 | The new path has the same length. Entries outside `[p1, p2]` are unchanged, and `new[i] = old[p1 + p2 - i]` inside the segment. |
| `Tour.TwoOptAsSlices` | tsp_state.py:54 | The index-wise move is the source's slicing: `path[:p1] + reversed(path[p1:p2 + 1]) + path[p2 + 1:]`. |
| `Tour.TwoOptPermutes` | tsp_state.py:54 | A 2-opt move keeps the multiset of cities. |
| `Tour.Reverse` | tsp_state.py:54 | `reversed` keeps the length, and entry `i` becomes entry `len - 1 - i`. |
| `Tour.ReversePermutes` | tsp_state.py:54 | `reversed` keeps the multiset of entries. |
| `Tour.TwoOptPreservesTour` | tsp_state.py:54 | An interior segment reversal of a closed tour of the cities is again a closed tour of the same cities from the same start. |
| `Tour.RearrangedTour` | tsp_state.py:27-29 | Any rearrangement that keeps the length, both endpoints and the multiset keeps a path a goal tour. |
| `Tour.ApplyMovesPreservesTour` | anneal.py:65-75 | Any chain of interior 2-opt moves keeps the length, the first and last city, and the multiset, so it keeps a closed tour a closed tour. |
| `Tour.TourVisitsEachCityOnce` | tsp_state.py:27-29 | If the city list has no duplicates, then a goal tour has `n + 1` entries. Its first `n` entries repeat nothing and are exactly the listed cities, and the start city is one of them. |
| `Tour.VisitsEachCityOnceIsTour` | tsp_state.py:25-29 | The converse of the previous row: over distinct cities, a path from the start city back to it whose open part repeats nothing and names exactly the listed cities is a goal tour. |
| `Tour.DistinctIffSingleCounts` | tsp_state.py:29 | A list has no repeats iff every city occurs at most once in its multiset. This makes multiset equality the same as "visits every city exactly once". |
| `Tour.PathCostConcat` | tsp_state.py:60-66 | The cost of a concatenation is the cost of both parts plus the leg that joins them. |
| `Tour.PathCostReverse` | tsp_state.py:60-66 | With a symmetric distance, a path costs the same in both directions. |
| `Tour.TwoOptCostChange` | tsp_state.py:54-66 | With a symmetric distance, a 2-opt move changes the cost only by the two legs at the ends of the reversed segment. |
| `TspHelper.NewHelper` | tsp_helper.py:10-16 | A falsy start city (absent or empty) defaults to the first listed city, and raises `IndexError` on an empty list. A truthy start city is kept as given. |
| `TspHelper.Remove` | tsp_helper.py:29 | `list.remove` raises `ValueError` iff the city is absent. Otherwise it drops exactly the first occurrence: the length drops by one and the multiset loses one copy. |
| `TspHelper.GetGreedyTour` | tsp_helper.py:22-41 | The result is exactly the reference tour `GreedyTour`: the start city, then at every step the city the nearest-city selector picks among those not yet visited, then the start city again. It succeeds exactly when that reference does. A result is a closed tour of all cities from the start city, of length `n + 1`. Its reported cost is its path cost, closing leg included. The call fails with `ValueError` when the start city is not listed. When the selector always picks a remaining city, it fails only then. |
| `TspHelper.VisitRemainingCities` | tsp_helper.py:31-37 | The walk it appends is exactly the reference `GreedyWalk`: each city is the selector's pick from the last city among the remaining ones, which is then removed. It succeeds exactly when that reference does. On exit the tour holds every listed city exactly as often as listed, and the accumulated cost equals the tour's path cost. It fails, with `ValueError`, only if the selector names a city that is not remaining. |
| `TspHelper.CloseTour` | tsp_helper.py:39-40 | Returning to the start city closes the walk into a goal tour of length `n + 1`, and adds exactly the closing leg to the cost. |
| `TspState.NewState` | tsp_state.py:14-20 | A new state keeps its helper and path, and its memo is unset (`-1`). |
| `TspState.IsGoalState` | tsp_state.py:25-29 | Raises `IndexError` iff the path is empty. Otherwise it is true iff the path starts at the start city, ends where it began, and its open part is a permutation of the cities. |
| `TspState.OrderPositions` | tsp_state.py:50-51 | The swap puts the two drawn positions in increasing order and keeps them as a pair. |
| `TspState.ChoosePositions` | tsp_state.py:44-51 | The retry loop ends at the first draw whose two positions differ, and returns them ordered with `1 <= p1 < p2 <= len - 2`. It finds nothing exactly when every draw repeats a position. The pair it returns is an accepted draw, and ordering it again leaves it unchanged, so it can be handed to `Successor` as it is. |
| `TspState.Successor` | tsp_state.py:35-56 | Returns `None` exactly when the path has fewer than 4 entries. Otherwise the new state has the same helper, an unset memo, and the same length, endpoints and multiset. Its path is the source path with `[p1, p2]` reversed, and the source state is left as it was. |
| `TspState.GetValue` | tsp_state.py:60-66 | Computes the sum of `dist(path[i], path[i+1])` over adjacent pairs the first time, and returns the memo afterwards. The returned state keeps the path and holds the value, so a second call returns the same cost. |
| `TspState.SuccessorPreservesGoal` | tsp_state.py:27-29 | The successor of a goal state is a goal state. |
| `TspState.SuccessorCostChange` | tsp_state.py:54-66 | With a symmetric distance, a successor's cost differs from its source's only in the two boundary legs of the reversed segment. |
| `TspState.GoalStateVisitsEachCityOnce` | tsp_state.py:25-29 | If the city list has no duplicates, a goal state visits each city exactly once before it returns to the start. |
| `TspState.GoalStateIffVisitsEachCityOnce` | tsp_state.py:25-29 | If the city list has no duplicates, `isGoalState` holds exactly when the path starts at the start city, ends there, and visits every listed city once in between. Both directions are proved. |
| `Schedule.NewSchedule` | schedule.py:8-11 | The defaults are `alpha = 0.995` and `T0 = 10000`, and the last temperature starts at `T0`. |
| `Schedule.Ceil` | schedule.py:18 | `math.ceil` returns the least integer not below its argument. |
| `Schedule.RoundUpToHundredth` | schedule.py:17-18 | `ceil(x * 100) / 100` is a whole number of hundredths, at least `x` and less than `x + 0.01`. |
| `Schedule.GetTemperature` | schedule.py:14-19 | The temperature is the least whole number of hundredths that is at least `T0 * alpha^t`. It is stored as the last temperature, and `alpha` and `T0` are unchanged. |
| `Schedule.TemperatureIgnoresLastValue` | schedule.py:14-19 | Two schedules with the same `alpha` and `T0` give the same temperature at every step, so the value stored by an earlier call has no effect. |
| `Schedule.TemperaturePositive` | schedule.py:15-18 | Over the reals, for `T0 > 0` and `alpha > 0` the temperature is at least 0.01, so it is never zero. |
| `Schedule.TemperatureNonIncreasing` | schedule.py:15-18 | For `T0 >= 0` and `0 < alpha <= 1` the temperature never rises from a step to a later step. |
| `Schedule.PowAntitone` | schedule.py:15 | For `0 < alpha <= 1`, `alpha^t` is positive and does not increase with `t`. |
| `Anneal.NewProblem` | anneal.py:9-14 | A new record keeps the initial state, has `Tstop = 5` by default, and starts with `time = -1`, `T = -1` and no final state. |
| `Anneal.SetResults` | anneal.py:40-43 | Sets exactly the final state, the time and the temperature. The initial state and `Tstop` are unchanged. |
| `Anneal.AcceptWithProbability` | anneal.py:85-88 | Raises `ZeroDivisionError` iff the temperature is 0. Otherwise it accepts iff the draw is below `exp(-change / T)`. |
| `Anneal.AcceptMove` | anneal.py:71-78 | An improvement (`delta < 0`) is accepted without consulting the draw, even at temperature 0. Any other move goes to the probabilistic test. |
| `Anneal.LateralMoveAccepted` | anneal.py:71-88 | A move with `delta = 0` is always accepted, because `exp(0) = 1` and the draw lies in `[0, 1)`. |
| `Anneal.SmallerWorseningAccepted` | anneal.py:85-88 | At a positive temperature with an increasing `exp`, a draw that accepts a worsening also accepts any smaller worsening. |
| `Anneal.Step` | anneal.py:63-78 | A path shorter than 4 raises `AttributeError`. Otherwise the state it visits keeps the helper and path and carries the filled memo: the stored cost if there was one, the path's cost if the memo was unset. It then takes the successor's cost. With correct memos, and `delta` the cost of the 2-opt reversal of the ordered draws minus the current cost: a move with `delta < 0` is accepted. A move with `delta >= 0` raises `ZeroDivisionError` at temperature 0, and otherwise is accepted iff `uniform < exp(-delta / T)`. An accepted move applies exactly that reversal, and a rejected move keeps the current state. With correct memos the step succeeds exactly when `SearchStep` does, and continues from the path `SearchStep` gives. |
| `Anneal.Decide` | anneal.py:71-78 | Raises `ZeroDivisionError` iff the move is not an improvement and the temperature is 0. Otherwise the move is accepted iff `delta < 0` or `uniform < exp(-delta / T)`. An accepted move continues from the successor and a rejected one from the current state. |
| `Anneal.SearchStepCases` | anneal.py:65-78 | One step on a bare path, by cases of the cost change `delta` of the 2-opt reversal of the ordered draws: `delta < 0` moves to the reversal; `delta >= 0` raises `ZeroDivisionError` at temperature 0; otherwise the reversal is taken iff `uniform < exp(-delta / T)`, and the path is kept if not. |
| `Anneal.DecisionFollowsSearch` | anneal.py:63-78 | A step outcome that follows `AcceptMove` on the true cost change of the proposed reversal is the outcome of `SearchStep`: the same success or failure, and the same next path. |
| `Anneal.RunSteps` | anneal.py:50-81 | With correct memos, the loop follows the reference search `Search` from step 0 to step 9999: step `t` uses `getTemperature(t)`, the `t`-th position draws and the `t`-th uniform draw. The loop fails exactly when that search raises, and otherwise ends on the path it reaches. After 9999 steps the schedule holds `getTemperature(9999)`. The final state is reached from the initial one by interior 2-opt moves, and memos stay correct. The initial state comes back with its memo filled (the stored cost, or the path's cost if it was unset), since the first iteration reads the cost of the initial state object itself. A path shorter than 4 fails, and over the reals a positive schedule never fails. |
| `Anneal.SimulatedAnnealing` | anneal.py:49-82 | With correct memos, it succeeds exactly when the reference search `Search` over 9999 steps does, and records that search's path as the final state. It records `time = 9999`, `T = schedule(9999)` and a final state with the same length, endpoints and multiset as the initial state, reached from it by 2-opt moves. A goal initial state gives a goal final state. `initialState` keeps its helper and path and comes back with its memo filled, `Tstop` is kept, and an initial path shorter than 4 raises `AttributeError`. |
| `Anneal.Advance` | anneal.py:52-78 | One iteration keeps the loop invariant `Reached`: the schedule holds `getTemperature(t)`, the initial state keeps its path and carries the filled memo, the current state is the initial object until a move is accepted and is reached by interior 2-opt moves, and the rest of `Search` from the current path is what `Search` from the start yields. A failing iteration is a failure of the whole search. |
| `Anneal.ReachablePreservesTour` | anneal.py:65-75 | A state reached by a chain of interior 2-opt moves has the same shape as the initial state, and is a goal tour whenever the initial state is. |

## Left out

- `tsp_data.py` is not part of this model. That includes file parsing,
  `getAllCities`, `getDistance` and `getDistancesFromCity`. Distances are an
  injected function, and the nearest-city choice is an injected selector. The
  model assumes the distance `getDistancesFromCity` reports for the city it
  ranks first equals `getDistance` of that pair (the cost added at
  tsp_helper.py:36).
- The `random` module. Position draws and uniform draws are parameters, with
  one accepted position pair and one uniform draw per step. Python consumes
  `random.random()` only when `deltaValue >= 0`; numbering the draws by step
  just relabels that stream.
- The retry loop at tsp_state.py:46-51 ends only with probability 1.
  `ChoosePositions` models it over a finite sequence of draws, and reports
  `None` when the draws run out. `Successor` takes the pair that ended the
  loop.
- `math.exp` and IEEE floating point. Costs and temperatures are reals, so
  there is no rounding error in `alpha ** t`, and no `OverflowError` from
  `exp` at negative temperatures.
- `Schedule.TemperaturePositive`: holds over the reals only. In IEEE
  doubles `alpha ** stepCount` underflows to `0.0` before step 9999 when
  `alpha` is below about 0.928 (for example `0.9 ** 7073 == 0.0`). Then
  `ceil(0.0 * 100) / 100` is `0.0`, and the temperature is zero.
- `Anneal.RunSteps`: "a positive schedule never fails" holds over the reals
  only. With a small `alpha`, the underflow above makes the temperature
  `0.0`, and the next move that is not an improvement raises
  `ZeroDivisionError` in `acceptWithProbabilty` (anneal.py:86). The default
  `alpha = 0.995` stays above the underflow for all 9999 steps.
- `print`, the `summary` methods, `getPath` string joining, and every
  `__main__` block. These are console output and demos.
- The trivial getters and setters of `Problem`, `TSPHelper.getStartCity`,
  and `ExponentialSchedule`'s attributes are fields of the datatypes.
- The commented-out stopping-temperature check (anneal.py:57-61) is dead code,
  and `moveToNextState` (tsp_state.py:31-33) is an empty stub.
- `isGoalState` compares `sorted` lists. For a total order on city names that
  is multiset equality, and the model states it that way.
- `Schedule.GetTemperature`: the step count is a natural number. Python also
  accepts negative exponents, but the loop never passes them.
- `Anneal.SimulatedAnnealing`: on an error path, nothing is stated about the
  schedule's last temperature. Python leaves the value of the failing step in
  it.
- The code has no stopping-temperature check (the loop never consults
  `Tstop`), no (step, cost) trajectory, no time budget, and only the exponential
  schedule, with `alpha = 0.995` and `T0 = 10000`. It runs a fixed
  `range(1, 10000)`, and so does the model.
- `getAllCities` is assumed to return a new list with the same contents on
  every call. `getGreedyTour` removes cities from the list it gets
  (tsp_helper.py:28-29, 37), and `isGoalState` compares against a fresh call
  (tsp_state.py:29). If `tsp_data.py` handed out its internal list, the greedy
  tour would empty it, and the model's `Helper.cities` would no longer be what
  `isGoalState` sees.

=== FILE: anneal.dfy ===
/** The annealing search: the run record, the Metropolis acceptance rule, and
    the fixed-length search loop. */
module Anneal {
  import opened Types
  import opened Tour
  import opened TspState
  import opened Schedule

  /** `range(1, 10000)` yields the steps 1 to 9999. */
  const Steps: nat := 9999

  /** `Problem`: the initial state and stopping temperature, and the results
      written at the end of a run. */
  datatype Problem = Problem(initialState: State, Tstop: real, time: int, T: real, finalState: Option<State>)

  /** `Problem(initialState, stoppingTemperature=5)`: no results yet. */
  function NewProblem(initialState: State, stoppingTemperature: real := 5.0): (p: Problem)
    ensures p.initialState == initialState && p.Tstop == stoppingTemperature
    ensures p.time == -1 && p.T == -1.0 && p.finalState == None
  {
    Problem(initialState, stoppingTemperature, -1, -1.0, None)
  }

  /** `setResults`: records the final state, the step count and the
      temperature, and leaves the initial state and stopping temperature alone. */
  function SetResults(p: Problem, state: State, time: int, temperature: real): (q: Problem)
    ensures q.finalState == Some(state) && q.time == time && q.T == temperature
    ensures q.initialState == p.initialState && q.Tstop == p.Tstop
  {
    p.(finalState := Some(state), time := time, T := temperature)
  }

  /** The injected `math.exp`. */
  type Exp = real -> real

  /** The probabilistic test's verdict: the uniform draw falls below
      `exp(-valueChange / temperature)`. */
  predicate DrawAccepts(valueChange: real, temperature: real, draw: real, exp: Exp)
    requires temperature != 0.0
  {
    draw < exp(-valueChange / temperature)
  }

  /** `acceptWithProbabilty`: accept when the uniform draw from `[0, 1)` falls
      below `exp(-valueChange / temperature)`; a zero temperature makes the
      division raise. */
  function AcceptWithProbability(valueChange: real, temperature: real, draw: real, exp: Exp): (r: Result<bool>)
    ensures r.Err? <==> temperature == 0.0
    ensures r.Err? ==> r.error == ZeroDivisionError
    ensures r.Ok? ==> (r.value <==> draw < exp(-valueChange / temperature))
  {
    if temperature == 0.0 then Err(ZeroDivisionError)
    else Ok(draw < exp(-valueChange / temperature))
  }

  /** The acceptance decision of one step: an improvement is taken without
      consulting the random source; anything else goes to the probabilistic test. */
  function AcceptMove(deltaValue: real, temperature: real, draw: real, exp: Exp): (r: Result<bool>)
    ensures deltaValue < 0.0 ==> r == Ok(true)
    ensures deltaValue >= 0.0 ==> r == AcceptWithProbability(deltaValue, temperature, draw, exp)
  {
    if deltaValue < 0.0 then Ok(true)
    else AcceptWithProbability(deltaValue, temperature, draw, exp)
  }

  // ---------------------------------------------------------------------------
  // The search loop

  /** The outcome of one step: the current state with its memo filled, the
      state the search continues from, and whether the move was accepted. */
  datatype StepOutcome = StepOutcome(visited: State, next: State, accepted: bool)

  /** The body of one iteration of `simulated_annealing`, at the given
      temperature and with the step's position draws and uniform draw: cost
      of the current state, its successor (`None` for a path shorter than 4,
      on which `getPath` raises), the successor's cost, and the decision. */
  method Step(current: State, temperature: real, draw1: int, draw2: int, uniform: real,
              dist: Distance, exp: Exp)
    returns (r: Result<StepOutcome>)
    requires |current.path| >= 4 ==> AcceptedDraws(|current.path|, draw1, draw2)
    ensures |current.path| < 4 ==> r == Err(AttributeError)
    ensures r.Err? ==> || (r.error == AttributeError && |current.path| < 4)
                       || (r.error == ZeroDivisionError && temperature == 0.0)
    ensures r.Ok? ==> r.value.visited.helper == current.helper && r.value.visited.path == current.path
    ensures r.Ok? ==> r.value.visited.value == FilledMemo(current, dist)
    ensures r.Ok? ==> r.value.next.helper == current.helper
    ensures r.Ok? && r.value.accepted ==>
              var (p1, p2) := OrderPositions(draw1, draw2);
              InteriorMove(|current.path|, (p1, p2)) && r.value.next.path == TwoOpt(current.path, p1, p2)
    ensures r.Ok? && !r.value.accepted ==> r.value.next == r.value.visited
    ensures r.Ok? && Memoised(current, dist) ==> Memoised(r.value.visited, dist) && Memoised(r.value.next, dist)
    ensures |current.path| >= 4 && Memoised(current, dist) ==>
              var (p1, p2) := OrderPositions(draw1, draw2);
              var delta := PathCost(TwoOpt(current.path, p1, p2), dist) - PathCost(current.path, dist);
              && (delta < 0.0 ==> r.Ok? && r.value.accepted)
              && (delta >= 0.0 && temperature == 0.0 ==> r == Err(ZeroDivisionError))
              && (delta >= 0.0 && temperature != 0.0 ==>
                    r.Ok? && (r.value.accepted <==> DrawAccepts(delta, temperature, uniform, exp)))
    ensures |current.path| >= 4 && Memoised(current, dist) ==>
              var expected := SearchStep(current.path, temperature, (draw1, draw2), uniform, dist, exp);
              && (r.Ok? <==> expected.Ok?)
              && (r.Ok? ==> r.value.next.path == expected.value)
  {
    var currentValue, visited := GetValue(current, dist);
    r := Propose(visited, temperature, draw1, draw2, uniform, dist, exp);
  }

  /** The rest of a step once the current cost is known: the successor, its
      cost, and the decision on the change against `visited.value`. */
  method Propose(visited: State, temperature: real, draw1: int, draw2: int, uniform: real,
                 dist: Distance, exp: Exp)
    returns (r: Result<StepOutcome>)
    requires |visited.path| >= 4 ==> AcceptedDraws(|visited.path|, draw1, draw2)
    ensures |visited.path| < 4 ==> r == Err(AttributeError)
    ensures r.Err? ==> || (r.error == AttributeError && |visited.path| < 4)
                       || (r.error == ZeroDivisionError && temperature == 0.0)
    ensures r.Ok? ==> r.value.visited == visited && r.value.next.helper == visited.helper
    ensures r.Ok? && r.value.accepted ==>
              var (p1, p2) := OrderPositions(draw1, draw2);
              InteriorMove(|visited.path|, (p1, p2)) && r.value.next.path == TwoOpt(visited.path, p1, p2)
    ensures r.Ok? && !r.value.accepted ==> r.value.next == visited
    ensures r.Ok? && Memoised(visited, dist) ==> Memoised(r.value.next, dist)
    ensures |visited.path| >= 4 && visited.value == PathCost(visited.path, dist) ==>
              var (p1, p2) := OrderPositions(draw1, draw2);
              var delta := PathCost(TwoOpt(visited.path, p1, p2), dist) - PathCost(visited.path, dist);
              && (delta < 0.0 ==> r.Ok? && r.value.accepted)
              && (delta >= 0.0 && temperature == 0.0 ==> r == Err(ZeroDivisionError))
              && (delta >= 0.0 && temperature != 0.0 ==>
                    r.Ok? && (r.value.accepted <==> DrawAccepts(delta, temperature, uniform, exp)))
    ensures |visited.path| >= 4 && visited.value == PathCost(visited.path, dist) ==>
              var expected := SearchStep(visited.path, temperature, (draw1, draw2), uniform, dist, exp);
              && (r.Ok? <==> expected.Ok?)
              && (r.Ok? ==> r.value.next.path == expected.value)
  {
    var successor := Successor(visited, draw1, draw2);
    if successor.None? {
      return Err(AttributeError);
    }
    assert successor.value.path == TwoOpt(visited.path, OrderPositions(draw1, draw2).0, OrderPositions(draw1, draw2).1);
    r := Weigh(visited, successor.value, temperature, draw1, draw2, uniform, dist, exp);
  }

  /** The second half of a step, once the current cost is known and the
      successor drawn: the successor's cost, and the decision on the change
      against `visited.value`. When that value is the path's true cost, the
      step is the one `SearchStep` describes. */
  method Weigh(visited: State, successor: State, temperature: real, draw1: int, draw2: int, uniform: real,
               dist: Distance, exp: Exp)
    returns (r: Result<StepOutcome>)
    requires |visited.path| >= 4 && AcceptedDraws(|visited.path|, draw1, draw2)
    requires successor.helper == visited.helper && successor.value == Unset
    requires successor.path == TwoOpt(visited.path, OrderPositions(draw1, draw2).0, OrderPositions(draw1, draw2).1)
    ensures r.Err? ==> r.error == ZeroDivisionError && temperature == 0.0
    ensures r.Ok? ==> r.value.visited == visited && r.value.next.helper == visited.helper
    ensures r.Ok? && r.value.accepted ==> r.value.next.path == successor.path
    ensures r.Ok? && !r.value.accepted ==> r.value.next == visited
    ensures r.Ok? && Memoised(visited, dist) ==> Memoised(r.value.next, dist)
    ensures visited.value == PathCost(visited.path, dist) ==>
              var delta := PathCost(successor.path, dist) - PathCost(visited.path, dist);
              && (delta < 0.0 ==> r.Ok? && r.value.accepted)
              && (delta >= 0.0 && temperature == 0.0 ==> r == Err(ZeroDivisionError))
              && (delta >= 0.0 && temperature != 0.0 ==>
                    r.Ok? && (r.value.accepted <==> DrawAccepts(delta, temperature, uniform, exp)))
    ensures visited.value == PathCost(visited.path, dist) ==>
              var expected := SearchStep(visited.path, temperature, (draw1, draw2), uniform, dist, exp);
              && (r.Ok? <==> expected.Ok?)
              && (r.Ok? ==> r.value.next.path == expected.value)
  {
    var nextValue, nextState := GetValue(successor, dist);
    var deltaValue := nextValue - visited.value;
    r := Decide(visited, nextState, deltaValue, temperature, uniform, exp);
    if visited.value == PathCost(visited.path, dist) {
      DecisionFollowsSearch(visited.path, temperature, (draw1, draw2), uniform, dist, exp, nextState.path, r);
    }
  }

  /** A decision taken on the true cost change of the proposed 2-opt move is
      the step `SearchStep` describes. */
  lemma {:induction false} DecisionFollowsSearch(cur: seq<City>, temperature: real, draw: (int, int), uniform: real,
                              dist: Distance, exp: Exp, proposed: seq<City>, outcome: Result<StepOutcome>)
    requires |cur| >= 4 && AcceptedDraws(|cur|, draw.0, draw.1)
    requires proposed == TwoOpt(cur, OrderPositions(draw.0, draw.1).0, OrderPositions(draw.0, draw.1).1)
    requires var accept := AcceptMove(PathCost(proposed, dist) - PathCost(cur, dist), temperature, uniform, exp);
             && (outcome.Ok? <==> accept.Ok?)
             && (outcome.Ok? ==> outcome.value.next.path == if accept.value then proposed else cur)
    ensures outcome.Ok? <==> SearchStep(cur, temperature, draw, uniform, dist, exp).Ok?
    ensures outcome.Ok? ==> outcome.value.next.path == SearchStep(cur, temperature, draw, uniform, dist, exp).value
  {
  }

  /** The decision that ends a step: move to `next` when `AcceptMove` says so,
      stay at `visited` otherwise, and pass on the division error. */
  method Decide(visited: State, next: State, deltaValue: real, temperature: real, uniform: real, exp: Exp)
    returns (r: Result<StepOutcome>)
    ensures r.Err? <==> deltaValue >= 0.0 && temperature == 0.0
    ensures r.Err? ==> r.error == ZeroDivisionError
    ensures r.Ok? ==> r.value.visited == visited
    ensures r.Ok? ==> (r.value.accepted <==> deltaValue < 0.0 || (temperature != 0.0 && DrawAccepts(deltaValue, temperature, uniform, exp)))
    ensures r.Ok? ==> r.value.next == if r.value.accepted then next else visited
    ensures r.Ok? <==> AcceptMove(deltaValue, temperature, uniform, exp).Ok?
    ensures r.Ok? ==> r.value.accepted == AcceptMove(deltaValue, temperature, uniform, exp).value
  {
    var accept := AcceptMove(deltaValue, temperature, uniform, exp);
    if accept.Err? {
      return Err(accept.error);
    }
    if accept.value {
      return Ok(StepOutcome(visited, next, true));
    }
    return Ok(StepOutcome(visited, visited, false));
  }

  // ---------------------------------------------------------------------------
  // The search as a reference sequence of paths

  /** One Metropolis step on a bare path: the 2-opt reversal of the ordered
      draws is taken when it improves the cost, or when the uniform draw passes
      the test at this temperature; a zero temperature with a move that does
      not improve raises `ZeroDivisionError`. */
  function SearchStep(cur: seq<City>, temperature: real, draw: (int, int), uniform: real,
                      dist: Distance, exp: Exp): (r: Result<seq<City>>)
    requires |cur| >= 4 && AcceptedDraws(|cur|, draw.0, draw.1)
    ensures r.Ok? ==> |r.value| == |cur|
  {
    var (p1, p2) := OrderPositions(draw.0, draw.1);
    var next := TwoOpt(cur, p1, p2);
    var accept :- AcceptMove(PathCost(next, dist) - PathCost(cur, dist), temperature, uniform, exp);
    Ok(if accept then next else cur)
  }

  /** `SearchStep` spelled out by cases of the cost change `delta` of the
      proposed move: an improvement is taken, a zero temperature raises, and
      otherwise the uniform draw decides. */
  lemma {:induction false} SearchStepCases(cur: seq<City>, temperature: real, draw: (int, int), uniform: real,
                                           dist: Distance, exp: Exp)
    requires |cur| >= 4 && AcceptedDraws(|cur|, draw.0, draw.1)
    ensures var (p1, p2) := OrderPositions(draw.0, draw.1);
            var next := TwoOpt(cur, p1, p2);
            var delta := PathCost(next, dist) - PathCost(cur, dist);
            var r := SearchStep(cur, temperature, draw, uniform, dist, exp);
            && (delta < 0.0 ==> r == Ok(next))
            && (delta >= 0.0 && temperature == 0.0 ==> r == Err(ZeroDivisionError))
            && (delta >= 0.0 && temperature != 0.0 ==>
                  r == Ok(if DrawAccepts(delta, temperature, uniform, exp) then next else cur))
  {
    var (p1, p2) := OrderPositions(draw.0, draw.1);
    var next := TwoOpt(cur, p1, p2);
    var delta := PathCost(next, dist) - PathCost(cur, dist);
    AcceptCases(delta, temperature, uniform, exp, next, cur, SearchStep(cur, temperature, draw, uniform, dist, exp));
  }

  /** The three outcomes of a decision by `AcceptMove` between moving to `next`
      and staying at `cur`. */
  lemma {:induction false} AcceptCases(delta: real, temperature: real, uniform: real, exp: Exp,
                                       next: seq<City>, cur: seq<City>, r: Result<seq<City>>)
    requires var accept := AcceptMove(delta, temperature, uniform, exp);
             r == if accept.Err? then Err(accept.error) else Ok(if accept.value then next else cur)
    ensures delta < 0.0 ==> r == Ok(next)
    ensures delta >= 0.0 && temperature == 0.0 ==> r == Err(ZeroDivisionError)
    ensures delta >= 0.0 && temperature != 0.0 ==>
              r == Ok(if DrawAccepts(delta, temperature, uniform, exp) then next else cur)
  {
  }

  /** The path the search holds after step `k` when it held `path` after step
      `t`: step `s` decides at `getTemperature(s)` with the `s`-th position
      draws and uniform draw, and a step that raises ends the search. */
  function Search(path: seq<City>, schedule: ExponentialSchedule, draws: seq<(int, int)>, uniforms: seq<real>,
                  dist: Distance, exp: Exp, t: nat, k: nat): (r: Result<seq<City>>)
    requires |path| >= 4 && t <= k <= |draws| && k <= |uniforms|
    requires forall j :: 0 <= j < |draws| ==> AcceptedDraws(|path|, draws[j].0, draws[j].1)
    ensures r.Ok? ==> |r.value| == |path|
    decreases k - t
  {
    if t == k then Ok(path)
    else
      var next :- SearchStep(path, GetTemperature(schedule, t + 1).T, draws[t], uniforms[t], dist, exp);
      Search(next, schedule, draws, uniforms, dist, exp, t + 1, k)
  }

  /** `simulated_annealing`: 9999 steps, each taking the temperature of the
      step and running `Step` with the step's draws; the final state, the
      last step and its temperature are written into the problem.

      The final state is reached from the initial state by a chain of 2-opt
      moves, so it keeps the initial path's length, endpoints and multiset of
      cities, and a goal initial state yields a goal final state. */
  method SimulatedAnnealing(problem: Problem, schedule: ExponentialSchedule, dist: Distance, exp: Exp,
                            draws: seq<(int, int)>, uniforms: seq<real>)
    returns (r: Result<Problem>, schedule': ExponentialSchedule)
    requires |draws| == Steps && |uniforms| == Steps
    requires |problem.initialState.path| >= 4 ==>
               forall k :: 0 <= k < |draws| ==> AcceptedDraws(|problem.initialState.path|, draws[k].0, draws[k].1)
    ensures |problem.initialState.path| < 4 ==> r == Err(AttributeError)
    ensures r.Err? ==> r.error == AttributeError || r.error == ZeroDivisionError
    ensures |problem.initialState.path| >= 4 && schedule.T0 > 0.0 && schedule.alpha > 0.0 ==> r.Ok?
    ensures r.Ok? ==> r.value.Tstop == problem.Tstop
    ensures r.Ok? ==> r.value.initialState.helper == problem.initialState.helper
    ensures r.Ok? ==> r.value.initialState.path == problem.initialState.path
    ensures r.Ok? ==> r.value.initialState.value == FilledMemo(problem.initialState, dist)
    ensures r.Ok? ==> r.value.time == Steps
    ensures r.Ok? ==> schedule' == GetTemperature(schedule, Steps) && r.value.T == schedule'.T
    ensures r.Ok? ==> r.value.finalState.Some? && r.value.finalState.value.helper == problem.initialState.helper
    ensures r.Ok? ==> ReachableByTwoOpt(problem.initialState.path, r.value.finalState.value.path)
    ensures r.Ok? ==> SameShape(problem.initialState.path, r.value.finalState.value.path)
    ensures r.Ok? && IsGoalState(problem.initialState) == Ok(true) ==>
              IsGoalState(r.value.finalState.value) == Ok(true)
    ensures r.Ok? && Memoised(problem.initialState, dist) ==>
              Memoised(r.value.finalState.value, dist) && Memoised(r.value.initialState, dist)
    ensures |problem.initialState.path| >= 4 && Memoised(problem.initialState, dist) ==>
              var expected := Search(problem.initialState.path, schedule, draws, uniforms, dist, exp, 0, Steps);
              && (r.Ok? <==> expected.Ok?)
              && (r.Ok? ==> r.value.finalState.value.path == expected.value)
  {
    var run;
    run, schedule' := RunSteps(problem.initialState, schedule, dist, exp, draws, uniforms);
    if run.Err? {
      return Err(run.error), schedule';
    }
    var (initial, final) := run.value;
    ReachablePreservesTour(problem.initialState.path, final.path);
    r := Ok(SetResults(problem.(initialState := initial), final, Steps, schedule'.T));
  }

  /** The loop of `simulated_annealing` from `start`. On success it returns the
      initial state object as the loop leaves it and the final current state.
      Python aliasing is kept: until the first accepted move the current state
      is the initial state object, so the first `getValue` fills the initial
      state's memo. */
  method RunSteps(start: State, schedule: ExponentialSchedule, dist: Distance, exp: Exp,
                  draws: seq<(int, int)>, uniforms: seq<real>)
    returns (r: Result<(State, State)>, sched: ExponentialSchedule)
    requires |draws| == Steps && |uniforms| == Steps
    requires |start.path| >= 4 ==> forall k :: 0 <= k < |draws| ==> AcceptedDraws(|start.path|, draws[k].0, draws[k].1)
    ensures |start.path| < 4 ==> r == Err(AttributeError)
    ensures r.Err? ==> r.error == AttributeError || r.error == ZeroDivisionError
    ensures |start.path| >= 4 && schedule.T0 > 0.0 && schedule.alpha > 0.0 ==> r.Ok?
    ensures r.Ok? ==> sched == GetTemperature(schedule, Steps)
    ensures r.Ok? ==> r.value.0.helper == start.helper && r.value.0.path == start.path
    ensures r.Ok? ==> r.value.0.value == FilledMemo(start, dist)
    ensures r.Ok? ==> r.value.1.helper == start.helper
    ensures r.Ok? ==> ReachableByTwoOpt(start.path, r.value.1.path)
    ensures r.Ok? && Memoised(start, dist) ==> Memoised(r.value.0, dist) && Memoised(r.value.1, dist)
    ensures |start.path| >= 4 && Memoised(start, dist) ==>
              var expected := Search(start.path, schedule, draws, uniforms, dist, exp, 0, Steps);
              && (r.Ok? <==> expected.Ok?)
              && (r.Ok? ==> r.value.1.path == expected.value)
  {
    var progress := Progress(schedule, start, start, true);
    sched := schedule;
    var time := 0;
    ghost var moves: seq<(int, int)> := [];

    while time < Steps
      invariant time <= Steps
      invariant sched == progress.sched
      invariant Reached(start, schedule, dist, exp, draws, uniforms, time, progress, moves)
    {
      var next;
      next, sched, moves := Advance(start, schedule, dist, exp, draws, uniforms, time, progress, moves);
      if next.Err? {
        return Err(next.error), sched;
      }
      progress := next.value;
      time := time + 1;
    }
    return Ok((progress.initial, progress.current)), sched;
  }

  /** The variables of the loop of `simulated_annealing`: the schedule, the
      initial state object, the current state, and whether the two are still
      the same object. */
  datatype Progress = Progress(sched: ExponentialSchedule, initial: State, current: State, currentIsInitial: bool)

  /** What holds of the loop's variables after `time` iterations from `start`:
      the schedule sits at step `time`; the initial state keeps its path and,
      once visited, carries its filled memo; the current state is the initial
      one until a move is accepted, and is reached from `start` by the interior
      moves `moves`; and what remains of `Search` from the current path is what
      `Search` from `start` yields. */
  ghost predicate Reached(start: State, schedule: ExponentialSchedule, dist: Distance, exp: Exp,
                          draws: seq<(int, int)>, uniforms: seq<real>, time: nat,
                          p: Progress, moves: seq<(int, int)>)
  {
    && time <= Steps
    && (time > 0 ==> |start.path| >= 4)
    && p.sched == schedule.(T := p.sched.T)
    && (time > 0 ==> p.sched == GetTemperature(schedule, time))
    && (time == 0 ==> p.currentIsInitial && p.initial == start)
    && p.initial.helper == start.helper && p.initial.path == start.path
    && (time > 0 ==> p.initial.value == FilledMemo(start, dist))
    && (p.currentIsInitial ==> p.current == p.initial)
    && p.current.helper == start.helper
    && (forall k :: 0 <= k < |moves| ==> InteriorMove(|start.path|, moves[k]))
    && p.current.path == ApplyMoves(start.path, moves)
    && (Memoised(start, dist) ==> Memoised(p.initial, dist) && Memoised(p.current, dist))
    && (&& |start.path| >= 4 && Memoised(start, dist) && |draws| == Steps && |uniforms| == Steps
        && (forall k :: 0 <= k < |draws| ==> AcceptedDraws(|start.path|, draws[k].0, draws[k].1))
        ==> Search(start.path, schedule, draws, uniforms, dist, exp, 0, Steps)
            == Search(p.current.path, schedule, draws, uniforms, dist, exp, time, Steps))
  }

  /** Iteration `time + 1` of the loop of `simulated_annealing`: the schedule
      update, then `Step` with this iteration's draws; the initial state object
      takes the filled memo while the current state is still that object. One
      iteration keeps `Reached` and is one step of `Search`: an error here is
      an error of the whole search. */
  method Advance(start: State, schedule: ExponentialSchedule, dist: Distance, exp: Exp,
                 draws: seq<(int, int)>, uniforms: seq<real>, time: nat,
                 p: Progress, ghost moves: seq<(int, int)>)
    returns (r: Result<Progress>, sched: ExponentialSchedule, ghost moves': seq<(int, int)>)
    requires |draws| == Steps && |uniforms| == Steps && time < Steps
    requires |start.path| >= 4 ==> forall k :: 0 <= k < |draws| ==> AcceptedDraws(|start.path|, draws[k].0, draws[k].1)
    requires Reached(start, schedule, dist, exp, draws, uniforms, time, p, moves)
    ensures sched == GetTemperature(schedule, time + 1)
    ensures |start.path| < 4 ==> r == Err(AttributeError)
    ensures r.Err? ==> || (r.error == AttributeError && |start.path| < 4)
                       || (r.error == ZeroDivisionError && sched.T == 0.0)
    ensures |start.path| >= 4 && schedule.T0 > 0.0 && schedule.alpha > 0.0 ==> r.Ok?
    ensures r.Err? && |start.path| >= 4 && Memoised(start, dist) ==>
              Search(start.path, schedule, draws, uniforms, dist, exp, 0, Steps).Err?
    ensures r.Ok? ==> r.value.sched == sched && Reached(start, schedule, dist, exp, draws, uniforms, time + 1, r.value, moves')
  {
    TemperatureIgnoresLastValue(schedule, p.sched, time + 1);
    sched := GetTemperature(p.sched, time + 1);
    if schedule.T0 > 0.0 && schedule.alpha > 0.0 {
      TemperaturePositive(schedule, time + 1);
    }
    if p.currentIsInitial && time > 0 {
      FilledMemoStable(start, p.current, dist);
    }
    if |start.path| >= 4 && Memoised(start, dist) {
      SearchUnfolds(p.current.path, schedule, draws, uniforms, dist, exp, time);
    }
    var (draw1, draw2) := draws[time];
    var step := Step(p.current, sched.T, draw1, draw2, uniforms[time], dist, exp);
    moves' := moves;
    if step.Err? {
      return Err(step.error), sched, moves';
    }
    if step.value.accepted {
      var move := OrderPositions(draw1, draw2);
      AppendMove(start.path, moves, move);
      moves' := moves + [move];
    }
    var initial := if p.currentIsInitial then step.value.visited else p.initial;
    r := Ok(Progress(sched, initial, step.value.next, p.currentIsInitial && !step.value.accepted));
  }

  /** `Search` from iteration `time` is this iteration's `SearchStep` followed
      by `Search` from iteration `time + 1`. */
  lemma {:induction false} SearchUnfolds(path: seq<City>, schedule: ExponentialSchedule, draws: seq<(int, int)>,
                                         uniforms: seq<real>, dist: Distance, exp: Exp, time: nat)
    requires |path| >= 4 && time < Steps && |draws| == Steps && |uniforms| == Steps
    requires forall k :: 0 <= k < |draws| ==> AcceptedDraws(|path|, draws[k].0, draws[k].1)
    ensures var next := SearchStep(path, GetTemperature(schedule, time + 1).T, draws[time], uniforms[time], dist, exp);
            && (next.Err? ==> Search(path, schedule, draws, uniforms, dist, exp, time, Steps) == Err(next.error))
            && (next.Ok? ==> Search(path, schedule, draws, uniforms, dist, exp, time, Steps)
                             == Search(next.value, schedule, draws, uniforms, dist, exp, time + 1, Steps))
  {
  }

  /** A path reached by interior 2-opt moves has the same shape as its origin,
      and is a closed tour whenever its origin is. */
  lemma {:induction false} ReachablePreservesTour(from: seq<City>, to: seq<City>)
    requires ReachableByTwoOpt(from, to)
    ensures SameShape(from, to)
    ensures forall cities, start :: IsTour(cities, start, from) ==> IsTour(cities, start, to)
  {
    var moves :| && (forall k :: 0 <= k < |moves| ==> InteriorMove(|from|, moves[k]))
                 && to == ApplyMoves(from, moves);
    ApplyMovesPreservesTour(from, moves);
  }

  /** Same length, same first and last entries, same multiset of cities. */
  predicate SameShape(from: seq<City>, to: seq<City>) {
    && |to| == |from|
    && (|from| > 0 ==> to[0] == from[0] && to[|to| - 1] == from[|from| - 1])
    && multiset(to) == multiset(from)
  }

  /** Extending a chain of moves by one more move applies that move last. */
  lemma {:induction false} AppendMove(path: seq<City>, moves: seq<(int, int)>, move: (int, int))
    requires forall k :: 0 <= k < |moves| ==> InteriorMove(|path|, moves[k])
    requires InteriorMove(|path|, move)
    ensures forall k :: 0 <= k < |moves + [move]| ==> InteriorMove(|path|, (moves + [move])[k])
    ensures ApplyMoves(path, moves + [move]) == TwoOpt(ApplyMoves(path, moves), move.0, move.1)
  {
    assert (moves + [move])[..|moves|] == moves;
  }

  // ---------------------------------------------------------------------------
  // Properties of the acceptance rule

  /** A move that leaves the cost unchanged is always accepted: `exp(0) = 1`
      and the uniform draw lies in `[0, 1)`. */
  lemma {:induction false} LateralMoveAccepted(temperature: real, draw: real, exp: Exp)
    requires temperature != 0.0
    requires exp(0.0) == 1.0
    requires 0.0 <= draw < 1.0
    ensures AcceptMove(0.0, temperature, draw, exp) == Ok(true)
  {
  }

  /** At a positive temperature and with an increasing `exp`, a draw that
      accepts a worsening move also accepts any smaller worsening. */
  lemma {:induction false} SmallerWorseningAccepted(delta1: real, delta2: real, temperature: real, draw: real, exp: Exp)
    requires 0.0 <= delta1 <= delta2
    requires temperature > 0.0
    requires forall x, y :: x <= y ==> exp(x) <= exp(y)
    requires AcceptMove(delta2, temperature, draw, exp) == Ok(true)
    ensures AcceptMove(delta1, temperature, draw, exp) == Ok(true)
  {
    assert delta1 / temperature <= delta2 / temperature by {
      assert (delta2 - delta1) / temperature >= 0.0;
    }
    assert exp(-delta2 / temperature) <= exp(-delta1 / temperature);
  }
}

=== FILE: schedule.dfy ===
/** The exponential cooling schedule `T(t) = T0 * alpha^t`, rounded up to two
    decimal places, over the mathematical reals. */
module Schedule {

  /** `ExponentialSchedule`: decay rate, initial temperature, and the last
      temperature handed out (`self.T`). */
  datatype ExponentialSchedule = ExponentialSchedule(alpha: real, T0: real, T: real)

  /** `ExponentialSchedule(alpha=0.995, T0=10000)`: the last temperature starts at `T0`. */
  function NewSchedule(alpha: real := 0.995, T0: real := 10000.0): (s: ExponentialSchedule)
    ensures s.alpha == alpha && s.T0 == T0
    ensures s.T == T0
  {
    ExponentialSchedule(alpha, T0, T0)
  }

  /** `x ** n` for a natural exponent. */
  function Pow(x: real, n: nat): real
  {
    if n == 0 then 1.0 else x * Pow(x, n - 1)
  }

  /** `math.ceil`: the least integer not below `x`. */
  function Ceil(x: real): (c: int)
    ensures c as real >= x
    ensures (c - 1) as real < x
  {
    -((-x).Floor)
  }

  /** `math.ceil(x * 100) / 100`: the least multiple of 0.01 not below `x`. */
  function RoundUpToHundredth(x: real): (r: real)
    ensures x <= r < x + 0.01
    ensures (r * 100.0).Floor as real == r * 100.0
  {
    Ceil(x * 100.0) as real / 100.0
  }

  /** `T0 * alpha^stepCount`, the temperature before rounding. */
  function ExactTemperature(s: ExponentialSchedule, stepCount: nat): real
  {
    s.T0 * Pow(s.alpha, stepCount)
  }

  /** `getTemperature(stepCount)`: `T0 * alpha^stepCount` rounded up to the
      next hundredth, which is also stored as the schedule's last temperature.
      The result is the least multiple of 0.01 that is not below the exact
      value. */
  function GetTemperature(s: ExponentialSchedule, stepCount: nat): (s': ExponentialSchedule)
    ensures s'.alpha == s.alpha && s'.T0 == s.T0
    ensures ExactTemperature(s, stepCount) <= s'.T < ExactTemperature(s, stepCount) + 0.01
    ensures (s'.T * 100.0).Floor as real == s'.T * 100.0
  {
    s.(T := RoundUpToHundredth(ExactTemperature(s, stepCount)))
  }

  // ---------------------------------------------------------------------------
  // Properties

  /** A positive base has positive powers. */
  lemma {:induction false} PowPositive(x: real, n: nat)
    requires x > 0.0
    ensures Pow(x, n) > 0.0
  {
    if n > 0 {
      PowPositive(x, n - 1);
    }
  }

  /** Powers of a base in `(0, 1]` do not increase with the exponent. */
  lemma {:induction false} PowAntitone(x: real, m: nat, n: nat)
    requires 0.0 < x <= 1.0
    requires m <= n
    ensures 0.0 < Pow(x, n) <= Pow(x, m)
    decreases n - m
  {
    PowPositive(x, n);
    if m < n {
      PowAntitone(x, m, n - 1);
      PowPositive(x, n - 1);
      assert Pow(x, n) == x * Pow(x, n - 1);
      assert x * Pow(x, n - 1) <= Pow(x, n - 1);
    }
  }

  /** `math.ceil` is monotone. */
  lemma {:induction false} CeilMonotone(x: real, y: real)
    requires x <= y
    ensures Ceil(x) <= Ceil(y)
  {
  }

  /** The temperature depends on the step only: the temperature stored by an
      earlier call has no influence on the next one. */
  lemma {:induction false} TemperatureIgnoresLastValue(s: ExponentialSchedule, s': ExponentialSchedule, stepCount: nat)
    requires s'.alpha == s.alpha && s'.T0 == s.T0
    ensures GetTemperature(s', stepCount) == GetTemperature(s, stepCount)
  {
    assert ExactTemperature(s', stepCount) == ExactTemperature(s, stepCount);
  }

  /** With a positive initial temperature and decay rate, the temperature is
      at least 0.01, so it is never zero and dividing by it is safe. */
  lemma {:induction false} TemperaturePositive(s: ExponentialSchedule, stepCount: nat)
    requires s.T0 > 0.0 && s.alpha > 0.0
    ensures GetTemperature(s, stepCount).T >= 0.01
  {
    PowPositive(s.alpha, stepCount);
    var exact := ExactTemperature(s, stepCount);
    assert exact > 0.0;
    var c := Ceil(exact * 100.0);
    assert c >= 1;
    assert RoundUpToHundredth(exact) == c as real / 100.0;
  }

  /** With a non-negative initial temperature and a decay rate in `(0, 1]`,
      the temperature never rises from one step to a later one. */
  lemma {:induction false} TemperatureNonIncreasing(s: ExponentialSchedule, t1: nat, t2: nat)
    requires s.T0 >= 0.0 && 0.0 < s.alpha <= 1.0
    requires t1 <= t2
    ensures GetTemperature(s, t2).T <= GetTemperature(s, t1).T
  {
    PowAntitone(s.alpha, t1, t2);
    ScaleMonotone(s.T0, Pow(s.alpha, t2), Pow(s.alpha, t1));
    RoundUpMonotone(ExactTemperature(s, t2), ExactTemperature(s, t1));
  }

  lemma {:induction false} RoundUpMonotone(x: real, y: real)
    requires x <= y
    ensures RoundUpToHundredth(x) <= RoundUpToHundredth(y)
  {
    ScaleMonotone(100.0, x, y);
    CeilMonotone(x * 100.0, y * 100.0);
    var cx, cy := Ceil(x * 100.0), Ceil(y * 100.0);
    assert cx as real / 100.0 <= cy as real / 100.0;
  }

  lemma {:induction false} ScaleMonotone(c: real, x: real, y: real)
    requires c >= 0.0 && x <= y
    ensures c * x <= c * y && x * c <= y * c
  {
    assert c * (y - x) >= 0.0;
  }
}

=== FILE: tour.dfy ===
/** Closed tours over a fixed city set, their cost, and the 2-opt segment
    reversal that the annealing search uses as its move. */
module Tour {

  /** Cities are named by strings in the instance files. */
  type City = string

  /** The instance's distance lookup, `getDistance(a, b)`. */
  type Distance = (City, City) -> real

  ghost predicate Symmetric(dist: Distance) {
    forall a, b :: dist(a, b) == dist(b, a)
  }

  predicate Distinct<T(==)>(s: seq<T>) {
    forall i, j :: 0 <= i < j < |s| ==> s[i] != s[j]
  }

  /** Sum of `dist(path[i], path[i + 1])` over every adjacent pair of `path`,
      accumulated left to right. */
  function PathCost(path: seq<City>, dist: Distance): real
  {
    if |path| < 2 then 0.0
    else PathCost(path[..|path| - 1], dist) + dist(path[|path| - 2], path[|path| - 1])
  }

  /** A closed tour of `cities` from `start`: it begins at `start`, ends where it
      began, and all entries but the last are a permutation of `cities`. */
  predicate IsTour(cities: seq<City>, start: City, path: seq<City>)
  {
    && |path| > 0
    && path[0] == start
    && path[0] == path[|path| - 1]
    && multiset(path[..|path| - 1]) == multiset(cities)
  }

  /** `list(reversed(s))`. */
  function Reverse<T>(s: seq<T>): (r: seq<T>)
    ensures |r| == |s|
    ensures forall i :: 0 <= i < |s| ==> r[i] == s[|s| - 1 - i]
  {
    if |s| == 0 then [] else Reverse(s[1..]) + [s[0]]
  }

  /** Reversing keeps the multiset of entries. Kept apart from `Reverse` so
      that callers that only index into the result do not carry it. */
  lemma {:induction false} ReversePermutes<T>(s: seq<T>)
    ensures multiset(Reverse(s)) == multiset(s)
  {
    if |s| > 0 {
      ReversePermutes(s[1..]);
      assert s == [s[0]] + s[1..];
    }
  }

  /** The 2-opt move: the closed segment `[p1, p2]` of `path` is reversed in
      place and everything else stays where it was. */
  function TwoOpt(path: seq<City>, p1: nat, p2: nat): (r: seq<City>)
    requires p1 <= p2 < |path|
    ensures |r| == |path|
    ensures forall i {:trigger r[i]} :: 0 <= i < |path| && (i < p1 || p2 < i) ==> r[i] == path[i]
    ensures forall i {:trigger r[i]} :: p1 <= i <= p2 ==> r[i] == path[p1 + p2 - i]
  {
    seq(|path|, i requires 0 <= i < |path| => if p1 <= i <= p2 then path[p1 + p2 - i] else path[i])
  }

  /** The 2-opt move as `path[:p1] + reversed(path[p1:p2 + 1]) + path[p2 + 1:]`. */
  lemma TwoOptAsSlices(path: seq<City>, p1: nat, p2: nat)
    requires p1 <= p2 < |path|
    ensures TwoOpt(path, p1, p2) == path[..p1] + Reverse(path[p1..p2 + 1]) + path[p2 + 1..]
  {
  }

  /** A 2-opt move only rearranges the path: the multiset of cities is kept. */
  lemma TwoOptPermutes(path: seq<City>, p1: nat, p2: nat)
    requires p1 <= p2 < |path|
    ensures multiset(TwoOpt(path, p1, p2)) == multiset(path)
  {
    ReversePermutes(path[p1..p2 + 1]);
    TwoOptAsSlices(path, p1, p2);
    assert path == path[..p1] + path[p1..p2 + 1] + path[p2 + 1..];
  }

  /** A move inside the interior of a path of length `n`: the first and last
      entries (the start city) are never touched. */
  predicate InteriorMove(n: int, m: (int, int)) {
    1 <= m.0 < m.1 <= n - 2
  }

  /** The path reached from `path` by applying `moves` in order. */
  function ApplyMoves(path: seq<City>, moves: seq<(int, int)>): (r: seq<City>)
    requires forall k :: 0 <= k < |moves| ==> InteriorMove(|path|, moves[k])
    ensures |r| == |path|
  {
    if |moves| == 0 then path
    else
      var m := moves[|moves| - 1];
      assert InteriorMove(|path|, moves[|moves| - 1]);
      TwoOpt(ApplyMoves(path, moves[..|moves| - 1]), m.0, m.1)
  }

  /** `to` is reached from `from` by a chain of interior 2-opt moves. */
  ghost predicate ReachableByTwoOpt(from: seq<City>, to: seq<City>) {
    exists moves: seq<(int, int)> ::
      && (forall k :: 0 <= k < |moves| ==> InteriorMove(|from|, moves[k]))
      && to == ApplyMoves(from, moves)
  }

  // ---------------------------------------------------------------------------
  // Properties of tours

  /** An interior 2-opt move keeps a closed tour a closed tour of the same cities. */
  lemma {:induction false} TwoOptPreservesTour(cities: seq<City>, start: City, path: seq<City>, p1: nat, p2: nat)
    requires IsTour(cities, start, path)
    requires 1 <= p1 <= p2 <= |path| - 2
    ensures IsTour(cities, start, TwoOpt(path, p1, p2))
  {
    var r := TwoOpt(path, p1, p2);
    TwoOptPermutes(path, p1, p2);
    RearrangedTour(cities, start, path, r);
  }

  /** A rearrangement that keeps the length, both endpoints and the multiset of
      a closed tour is again a closed tour of the same cities. */
  lemma {:induction false} RearrangedTour(cities: seq<City>, start: City, path: seq<City>, r: seq<City>)
    requires IsTour(cities, start, path)
    requires |r| == |path| && r[0] == path[0] && r[|r| - 1] == path[|path| - 1]
    requires multiset(r) == multiset(path)
    ensures IsTour(cities, start, r)
  {
    MultisetDropLast(r);
    MultisetDropLast(path);
  }

  lemma MultisetDropLast<T>(s: seq<T>)
    requires |s| > 0
    ensures multiset(s[..|s| - 1]) == multiset(s) - multiset{s[|s| - 1]}
  {
    assert s == s[..|s| - 1] + [s[|s| - 1]];
  }

  /** Any chain of interior 2-opt moves keeps the length, both endpoints and
      the multiset of cities, and so keeps a closed tour a closed tour. */
  lemma {:induction false} ApplyMovesPreservesTour(path: seq<City>, moves: seq<(int, int)>)
    requires forall k :: 0 <= k < |moves| ==> InteriorMove(|path|, moves[k])
    ensures |path| > 0 ==> ApplyMoves(path, moves)[0] == path[0]
    ensures |path| > 0 ==> ApplyMoves(path, moves)[|path| - 1] == path[|path| - 1]
    ensures multiset(ApplyMoves(path, moves)) == multiset(path)
    ensures forall cities, start :: IsTour(cities, start, path) ==> IsTour(cities, start, ApplyMoves(path, moves))
  {
    if |moves| > 0 {
      var prefix := moves[..|moves| - 1];
      var m := moves[|moves| - 1];
      ApplyMovesPreservesTour(path, prefix);
      var q := ApplyMoves(path, prefix);
      TwoOptPermutes(q, m.0, m.1);
      forall cities, start | IsTour(cities, start, path)
        ensures IsTour(cities, start, ApplyMoves(path, moves))
      {
        TwoOptPreservesTour(cities, start, q, m.0, m.1);
      }
    }
  }

  /** Two positions holding the same value give that value a count of at least two. */
  lemma {:induction false} RepeatCountsTwice<T>(s: seq<T>, i: nat, j: nat)
    requires i < j < |s| && s[i] == s[j]
    ensures multiset(s)[s[i]] >= 2
  {
    assert s == s[..j] + [s[j]] + s[j + 1..];
    assert s[..j][i] == s[i];
    assert s[i] in multiset(s[..j]);
  }

  /** A sequence has no repeated entry iff every value occurs at most once in its multiset. */
  lemma {:induction false} DistinctIffSingleCounts<T>(s: seq<T>)
    ensures Distinct(s) <==> forall x :: multiset(s)[x] <= 1
  {
    if |s| > 0 {
      DistinctIffSingleCounts(s[1..]);
      assert s == [s[0]] + s[1..];
      if Distinct(s) {
        assert Distinct(s[1..]);
        assert s[0] !in s[1..];
      }
    }
    if !Distinct(s) {
      var i, j :| 0 <= i < j < |s| && s[i] == s[j];
      RepeatCountsTwice(s, i, j);
    }
  }

  /** When the city list has no duplicates, a closed tour visits each city
      exactly once before returning: it has one entry per city plus the return
      to the start, its open part repeats nothing, and it names exactly the
      listed cities. */
  lemma {:induction false} TourVisitsEachCityOnce(cities: seq<City>, start: City, path: seq<City>)
    requires Distinct(cities)
    requires IsTour(cities, start, path)
    ensures |path| == |cities| + 1
    ensures Distinct(path[..|path| - 1])
    ensures forall c :: c in cities <==> c in path[..|path| - 1]
    ensures |cities| > 0 ==> start in cities
  {
    var open := path[..|path| - 1];
    assert |multiset(open)| == |multiset(cities)|;
    DistinctIffSingleCounts(cities);
    DistinctIffSingleCounts(open);
    forall c
      ensures c in cities <==> c in open
    {
      assert c in cities <==> c in multiset(cities);
      assert c in open <==> c in multiset(open);
    }
    if |cities| > 0 {
      assert open[0] == start;
    }
  }

  /** The converse, when the city list has no duplicates: a path that starts
      and ends at the start city and whose open part repeats nothing and names
      exactly the listed cities is a closed tour of them. */
  lemma {:induction false} VisitsEachCityOnceIsTour(cities: seq<City>, start: City, path: seq<City>)
    requires Distinct(cities)
    requires |path| > 0 && path[0] == start && path[|path| - 1] == start
    requires Distinct(path[..|path| - 1])
    requires forall c :: c in cities <==> c in path[..|path| - 1]
    ensures IsTour(cities, start, path)
  {
    var open := path[..|path| - 1];
    DistinctIffSingleCounts(cities);
    DistinctIffSingleCounts(open);
    forall c
      ensures multiset(open)[c] == multiset(cities)[c]
    {
      assert c in cities <==> c in multiset(cities);
      assert c in open <==> c in multiset(open);
    }
    assert multiset(open) == multiset(cities);
  }

  // ---------------------------------------------------------------------------
  // Cost of a tour

  /** The cost of a concatenation is the cost of both parts plus the leg joining them. */
  lemma {:induction false} PathCostConcat(a: seq<City>, b: seq<City>, dist: Distance)
    requires |a| > 0 && |b| > 0
    ensures PathCost(a + b, dist) == PathCost(a, dist) + dist(a[|a| - 1], b[0]) + PathCost(b, dist)
    decreases |b|
  {
    var ab := a + b;
    if |b| == 1 {
      assert ab[..|ab| - 1] == a;
    } else {
      var b' := b[..|b| - 1];
      assert ab[..|ab| - 1] == a + b';
      PathCostConcat(a, b', dist);
      assert b'[0] == b[0];
    }
  }

  /** With a symmetric distance, a path costs the same in either direction. */
  lemma {:induction false} PathCostReverse(s: seq<City>, dist: Distance)
    requires Symmetric(dist)
    ensures PathCost(Reverse(s), dist) == PathCost(s, dist)
  {
    if |s| >= 2 {
      var tail := s[1..];
      PathCostReverse(tail, dist);
      var rt := Reverse(tail);
      assert Reverse(s) == rt + [s[0]];
      PathCostConcat(rt, [s[0]], dist);
      assert s == [s[0]] + tail;
      PathCostConcat([s[0]], tail, dist);
      assert rt[|rt| - 1] == tail[0];
    }
  }

  /** The classic 2-opt cost change: reversing the interior segment `[p1, p2]`
      of a path replaces the two legs entering and leaving the segment by the
      two legs joining their outer ends the other way round; with a symmetric
      distance nothing inside the segment changes cost. */
  lemma {:induction false} TwoOptCostChange(path: seq<City>, p1: nat, p2: nat, dist: Distance)
    requires Symmetric(dist)
    requires 1 <= p1 <= p2 <= |path| - 2
    ensures PathCost(TwoOpt(path, p1, p2), dist)
         == PathCost(path, dist)
            - dist(path[p1 - 1], path[p1]) - dist(path[p2], path[p2 + 1])
            + dist(path[p1 - 1], path[p2]) + dist(path[p1], path[p2 + 1])
  {
    var a, m, b := path[..p1], path[p1..p2 + 1], path[p2 + 1..];
    assert PathCost(path, dist)
        == PathCost(a, dist) + dist(path[p1 - 1], path[p1]) + PathCost(m, dist)
           + dist(path[p2], path[p2 + 1]) + PathCost(b, dist) by {
      assert path == (a + m) + b;
      PathCostThreeParts(a, m, b, dist);
    }
    var rm := Reverse(m);
    assert rm[0] == path[p2] && rm[|rm| - 1] == path[p1] by {
      ReverseEnds(m);
    }
    assert PathCost(TwoOpt(path, p1, p2), dist)
        == PathCost(a, dist) + dist(path[p1 - 1], path[p2]) + PathCost(rm, dist)
           + dist(path[p1], path[p2 + 1]) + PathCost(b, dist) by {
      TwoOptAsSlices(path, p1, p2);
      PathCostThreeParts(a, rm, b, dist);
    }
    PathCostReverse(m, dist);
  }

  lemma ReverseEnds<T>(s: seq<T>)
    requires |s| > 0
    ensures Reverse(s)[0] == s[|s| - 1] && Reverse(s)[|s| - 1] == s[0]
  {
  }

  /** `PathCostConcat` applied twice, for a path cut into three non-empty parts. */
  lemma {:induction false} PathCostThreeParts(a: seq<City>, m: seq<City>, b: seq<City>, dist: Distance)
    requires |a| > 0 && |m| > 0 && |b| > 0
    ensures PathCost((a + m) + b, dist)
         == PathCost(a, dist) + dist(a[|a| - 1], m[0]) + PathCost(m, dist)
            + dist(m[|m| - 1], b[0]) + PathCost(b, dist)
  {
    PathCostConcat(a, m, dist);
    PathCostConcat(a + m, b, dist);
    assert (a + m)[|a + m| - 1] == m[|m| - 1];
  }
}

=== FILE: tsp_helper.dfy ===
/** Book-keeping shared by every state of one problem: the instance's city
    list, the start city, and the nearest-neighbour seed tour. */
module TspHelper {
  import opened Types
  import opened Tour

  /** `TSPHelper`: the instance's cities (`tspData.getAllCities()`) and the
      city every tour starts and ends at. The distance table is passed
      separately to the operations that need it. */
  datatype Helper = Helper(cities: seq<City>, startCity: City)

  /** Python truthiness of the optional `startCity` argument: absent and empty are false. */
  predicate Falsy(startCity: Option<City>) {
    startCity.None? || startCity.value == ""
  }

  /** `TSPHelper(tspData, startCity=None)`: a falsy start city is replaced by
      the first city of the instance, which fails on an empty instance. */
  function NewHelper(cities: seq<City>, startCity: Option<City> := None): (r: Result<Helper>)
    ensures r.Err? <==> Falsy(startCity) && |cities| == 0
    ensures r.Err? ==> r.error == IndexError
    ensures r.Ok? ==> r.value.cities == cities
    ensures r.Ok? && Falsy(startCity) ==> r.value.startCity == cities[0]
    ensures !Falsy(startCity) ==> r.Ok? && r.value.startCity == startCity.value
  {
    if !Falsy(startCity) then Ok(Helper(cities, startCity.value))
    else if |cities| == 0 then Err(IndexError)
    else Ok(Helper(cities, cities[0]))
  }

  /** Position of the first occurrence of `x` in `s`. */
  function FirstIndex(s: seq<City>, x: City): (i: nat)
    requires x in s
    ensures i < |s| && s[i] == x
    ensures x !in s[..i]
  {
    if s[0] == x then 0
    else
      var j := FirstIndex(s[1..], x);
      assert s[..j + 1] == [s[0]] + s[1..][..j];
      j + 1
  }

  /** Python's `list.remove(x)`: drops the first occurrence of `x`, or raises
      `ValueError` when there is none. */
  function Remove(s: seq<City>, x: City): (r: Result<seq<City>>)
    ensures r.Err? <==> x !in s
    ensures r.Err? ==> r.error == ValueError
    ensures r.Ok? ==> |r.value| == |s| - 1
    ensures r.Ok? ==> multiset(r.value) == multiset(s) - multiset{x}
    ensures r.Ok? ==> exists i :: 0 <= i < |s| && s[i] == x && x !in s[..i] && r.value == s[..i] + s[i + 1..]
  {
    if x !in s then Err(ValueError)
    else
      var i := FirstIndex(s, x);
      assert s == s[..i] + [x] + s[i + 1..];
      Ok(s[..i] + s[i + 1..])
  }

  /** Moving one occurrence of `x` from `b` to the end of `a` keeps the combined multiset. */
  lemma {:induction false} MoveOne(a: seq<City>, b: seq<City>, x: City)
    requires x in b
    ensures multiset(a + [x]) + (multiset(b) - multiset{x}) == multiset(a) + multiset(b)
  {
    assert x in multiset(b);
  }

  /** Appending a city adds exactly the leg from the current last city. */
  lemma {:induction false} PathCostAppend(tour: seq<City>, next: City, dist: Distance)
    requires |tour| > 0
    ensures PathCost(tour + [next], dist) == PathCost(tour, dist) + dist(tour[|tour| - 1], next)
  {
    assert (tour + [next])[..|tour|] == tour;
  }

  /** Returning to the start from a walk through every city closes a tour. */
  lemma {:induction false} CloseTour(cities: seq<City>, start: City, tour: seq<City>, dist: Distance)
    requires |tour| > 0 && tour[0] == start
    requires multiset(tour) == multiset(cities)
    ensures IsTour(cities, start, tour + [start])
    ensures |tour + [start]| == |cities| + 1
    ensures PathCost(tour + [start], dist) == PathCost(tour, dist) + dist(tour[|tour| - 1], start)
  {
    var closed := tour + [start];
    assert closed[..|closed| - 1] == tour;
    assert |multiset(tour)| == |multiset(cities)|;
    PathCostAppend(tour, start, dist);
  }

  /** The injected nearest-neighbour choice: the city that
      `getDistancesFromCity(current, remaining)` ranks first. */
  type Selector = (City, seq<City>) -> City

  /** The selector always names one of the cities it was offered. */
  ghost predicate ChoosesRemaining(select: Selector) {
    forall current, remaining :: |remaining| > 0 ==> select(current, remaining) in remaining
  }

  /** The walk the greedy loop takes from `current` through `remaining`: the
      selector's pick, then the walk from that pick through what is left once
      it is removed. It fails, as `list.remove` does, when the selector names
      a city that is not remaining. */
  function GreedyWalk(current: City, remaining: seq<City>, select: Selector): Result<seq<City>>
    decreases |remaining|
  {
    if |remaining| == 0 then Ok([])
    else
      var next := select(current, remaining);
      var rest :- Remove(remaining, next);
      var tail :- GreedyWalk(next, rest, select);
      Ok([next] + tail)
  }

  /** One step of the greedy walk: a successful removal of the pick leaves the
      walk from the pick, with the pick in front; a failed one fails the walk. */
  lemma {:induction false} GreedyWalkStep(current: City, remaining: seq<City>, select: Selector)
    requires |remaining| > 0
    ensures var next := select(current, remaining);
            var removed := Remove(remaining, next);
            && (removed.Err? ==> GreedyWalk(current, remaining, select) == Err(ValueError))
            && (removed.Ok? ==>
                  var tail := GreedyWalk(next, removed.value, select);
                  && (GreedyWalk(current, remaining, select).Ok? <==> tail.Ok?)
                  && (tail.Ok? ==> GreedyWalk(current, remaining, select).value == [next] + tail.value))
  {
  }

  /** The loop invariant of `VisitRemainingCities` survives one successful
      iteration: `whole` is the walk the loop is expected to produce, and it
      still splits into what has been walked and the greedy walk from there. */
  lemma {:induction false} AdvanceWalk(whole: seq<City>, ok: bool, walk: seq<City>, remaining: seq<City>,
                                       select: Selector)
    requires |walk| > 0 && |remaining| > 0
    requires Remove(remaining, select(walk[|walk| - 1], remaining)).Ok?
    requires GreedyWalk(walk[|walk| - 1], remaining, select).Ok? <==> ok
    requires ok ==> whole == walk + GreedyWalk(walk[|walk| - 1], remaining, select).value
    ensures var next := select(walk[|walk| - 1], remaining);
            var rest := Remove(remaining, next).value;
            && (GreedyWalk(next, rest, select).Ok? <==> ok)
            && (ok ==> whole == (walk + [next]) + GreedyWalk(next, rest, select).value)
  {
    GreedyWalkStep(walk[|walk| - 1], remaining, select);
  }

  /** The tour `getGreedyTour` builds: the start city, the greedy walk through
      the other listed cities, and the start city again. */
  function GreedyTour(h: Helper, select: Selector): Result<seq<City>>
  {
    var others :- Remove(h.cities, h.startCity);
    var walk :- GreedyWalk(h.startCity, others, select);
    Ok([h.startCity] + walk + [h.startCity])
  }

  /** `getGreedyTour`: start at the start city, repeatedly move to the city the
      selector picks among those not yet visited, then close the tour. The
      returned cost is the cost of the returned tour, closing leg included. */
  method GetGreedyTour(h: Helper, dist: Distance, select: Selector) returns (r: Result<(seq<City>, real)>)
    ensures r.Ok? ==> IsTour(h.cities, h.startCity, r.value.0)
    ensures r.Ok? ==> |r.value.0| == |h.cities| + 1
    ensures r.Ok? ==> r.value.1 == PathCost(r.value.0, dist)
    ensures r.Err? ==> r.error == ValueError
    ensures h.startCity !in h.cities ==> r.Err?
    ensures ChoosesRemaining(select) ==> (r.Ok? <==> h.startCity in h.cities)
    ensures r.Ok? <==> GreedyTour(h, select).Ok?
    ensures r.Ok? ==> r.value.0 == GreedyTour(h, select).value
  {
    var remainingCities :- Remove(h.cities, h.startCity);
    var walk := VisitRemainingCities(h.cities, [h.startCity], 0.0, remainingCities, dist, select);
    if walk.Err? {
      return Err(walk.error);
    }
    var (tour, tourCost) := walk.value;
    CloseTour(h.cities, h.startCity, tour, dist);
    return Ok((tour + [h.startCity], tourCost + dist(tour[|tour| - 1], h.startCity)));
  }

  /** The loop of `getGreedyTour`: extends `tour` by one selected city per
      iteration, removing it from `remainingCities`, until none remain. Each
      city of the instance ends up in the walk exactly as often as it is
      listed, and the accumulated cost is the cost of the walk. */
  method VisitRemainingCities(cities: seq<City>, tour: seq<City>, tourCost: real, remainingCities: seq<City>,
                              dist: Distance, select: Selector)
    returns (r: Result<(seq<City>, real)>)
    requires |tour| > 0
    requires multiset(tour) + multiset(remainingCities) == multiset(cities)
    requires tourCost == PathCost(tour, dist)
    ensures r.Ok? ==> |r.value.0| > 0 && r.value.0[0] == tour[0]
    ensures r.Ok? ==> multiset(r.value.0) == multiset(cities)
    ensures r.Ok? ==> r.value.1 == PathCost(r.value.0, dist)
    ensures r.Err? ==> r.error == ValueError && !ChoosesRemaining(select)
    ensures r.Ok? <==> GreedyWalk(tour[|tour| - 1], remainingCities, select).Ok?
    ensures r.Ok? ==> r.value.0 == tour + GreedyWalk(tour[|tour| - 1], remainingCities, select).value
  {
    var walk, cost, remaining := tour, tourCost, remainingCities;
    ghost var expected := GreedyWalk(tour[|tour| - 1], remainingCities, select);
    ghost var whole := if expected.Ok? then tour + expected.value else [];
    while |remaining| > 0
      invariant |walk| > 0 && walk[0] == tour[0]
      invariant multiset(walk) + multiset(remaining) == multiset(cities)
      invariant cost == PathCost(walk, dist)
      invariant GreedyWalk(walk[|walk| - 1], remaining, select).Ok? <==> expected.Ok?
      invariant expected.Ok? ==> whole == walk + GreedyWalk(walk[|walk| - 1], remaining, select).value
      decreases |remaining|
    {
      var currentCity := walk[|walk| - 1];
      var nextCity := select(currentCity, remaining);
      PathCostAppend(walk, nextCity, dist);
      var removed := Remove(remaining, nextCity);
      if removed.Err? {
        GreedyWalkStep(currentCity, remaining, select);
        return Err(removed.error);
      }
      MoveOne(walk, remaining, nextCity);
      AdvanceWalk(whole, expected.Ok?, walk, remaining, select);
      walk, cost := walk + [nextCity], cost + dist(currentCity, nextCity);
      remaining := removed.value;
    }
    assert remaining == [];
    return Ok((walk, cost));
  }
}

=== FILE: tsp_state.dfy ===
/** A state of the search: one candidate tour with its memoised cost, and the
    random 2-opt successor move. */
module TspState {
  import opened Types
  import opened Tour
  import opened TspHelper

  /** The marker the constructor stores in `value` until the cost is computed. */
  const Unset: real := -1.0

  /** `TSPState`: the shared helper, the path (a list of cities), and the
      memoised cost, `Unset` until first asked for. */
  datatype State = State(helper: Helper, path: seq<City>, value: real)

  /** `TSPState(tspHelper, path)`: a state whose cost is not yet computed. */
  function NewState(helper: Helper, path: seq<City>): (s: State)
    ensures s.helper == helper && s.path == path
    ensures s.value == Unset
  {
    State(helper, path, Unset)
  }

  /** The memo is either still unset or holds the true cost of the path. */
  predicate Memoised(s: State, dist: Distance) {
    s.value == Unset || s.value == PathCost(s.path, dist)
  }

  /** The memo `getValue` leaves behind: the stored cost if there is one,
      the path's cost otherwise. */
  function FilledMemo(s: State, dist: Distance): real {
    if s.value == Unset then PathCost(s.path, dist) else s.value
  }

  /** `isGoalState`: the path starts at the start city, ends where it began,
      and its open part lists the instance's cities (compared as sorted lists,
      that is, as multisets). Indexing an empty path raises `IndexError`. */
  function IsGoalState(s: State): (r: Result<bool>)
    ensures r.Err? <==> |s.path| == 0
    ensures r.Err? ==> r.error == IndexError
    ensures r == Ok(true) <==> IsTour(s.helper.cities, s.helper.startCity, s.path)
  {
    if |s.path| == 0 then Err(IndexError)
    else Ok(s.path[0] == s.helper.startCity
            && s.path[0] == s.path[|s.path| - 1]
            && multiset(s.path[..|s.path| - 1]) == multiset(s.helper.cities))
  }

  /** `random.randint(1, n - 2)` draws an interior position of a path of length `n`. */
  predicate InteriorPosition(n: int, p: int) {
    1 <= p <= n - 2
  }

  /** A pair of draws that ends the retry loop of `getSuccessor`: both interior, and distinct. */
  predicate AcceptedDraws(n: int, a: int, b: int) {
    InteriorPosition(n, a) && InteriorPosition(n, b) && a != b
  }

  /** The swap that puts the two drawn positions in increasing order. */
  function OrderPositions(a: int, b: int): (r: (int, int))
    ensures r.0 <= r.1
    ensures (r.0 == a && r.1 == b) || (r.0 == b && r.1 == a)
  {
    if a > b then (b, a) else (a, b)
  }

  /** The retry loop of `getSuccessor`: draws pairs of interior positions until
      the two differ, then orders them. `draws` is the sequence of pairs the
      random source yields; `None` means it ran out before yielding a
      distinct pair (the source would keep drawing). */
  method ChoosePositions(n: int, draws: seq<(int, int)>) returns (r: Option<(int, int)>)
    requires n >= 4
    requires forall k :: 0 <= k < |draws| ==> InteriorPosition(n, draws[k].0) && InteriorPosition(n, draws[k].1)
    ensures r.None? <==> forall k :: 0 <= k < |draws| ==> draws[k].0 == draws[k].1
    ensures r.Some? ==> InteriorMove(n, r.value)
    ensures r.Some? ==> AcceptedDraws(n, r.value.0, r.value.1) && OrderPositions(r.value.0, r.value.1) == r.value
    ensures r.Some? ==> exists k :: 0 <= k < |draws|
                          && (forall j :: 0 <= j < k ==> draws[j].0 == draws[j].1)
                          && r.value == OrderPositions(draws[k].0, draws[k].1)
  {
    var position1, position2 := -1, -1;
    var k := 0;
    while position1 == position2
      invariant 0 <= k <= |draws|
      invariant position1 == position2 ==> forall j :: 0 <= j < k ==> draws[j].0 == draws[j].1
      invariant position1 != position2 ==>
                  && 0 < k
                  && (forall j :: 0 <= j < k - 1 ==> draws[j].0 == draws[j].1)
                  && (position1, position2) == OrderPositions(draws[k - 1].0, draws[k - 1].1)
      decreases |draws| - k
    {
      if k == |draws| {
        return None;
      }
      position1, position2 := draws[k].0, draws[k].1;
      if position1 > position2 {
        position1, position2 := position2, position1;
      }
      k := k + 1;
    }
    return Some((position1, position2));
  }

  /** `getSuccessor`, given the pair of draws that ended its retry loop: no
      successor for a path shorter than 4, otherwise a new state whose path is
      the source path with the segment between the two positions reversed. */
  function Successor(s: State, draw1: int, draw2: int): (r: Option<State>)
    requires |s.path| >= 4 ==> AcceptedDraws(|s.path|, draw1, draw2)
    ensures r.None? <==> |s.path| < 4
    ensures r.Some? ==> r.value.helper == s.helper && r.value.value == Unset
    ensures r.Some? ==> |r.value.path| == |s.path|
    ensures r.Some? ==> r.value.path[0] == s.path[0] && r.value.path[|s.path| - 1] == s.path[|s.path| - 1]
    ensures r.Some? ==> multiset(r.value.path) == multiset(s.path)
    ensures r.Some? ==>
              var (p1, p2) := OrderPositions(draw1, draw2);
              && p1 < p2
              && (forall i :: 0 <= i < |s.path| && (i < p1 || p2 < i) ==> r.value.path[i] == s.path[i])
              && (forall i :: p1 <= i <= p2 ==> r.value.path[i] == s.path[p1 + p2 - i])
  {
    if |s.path| < 4 then None
    else
      var (position1, position2) := OrderPositions(draw1, draw2);
      TwoOptPermutes(s.path, position1, position2);
      Some(NewState(s.helper, TwoOpt(s.path, position1, position2)))
  }

  /** `getValue`: the cost of the path, computed by one pass over adjacent
      pairs the first time and read from the memo afterwards. The returned
      state carries the filled memo. */
  method GetValue(s: State, dist: Distance) returns (v: real, s': State)
    ensures s'.helper == s.helper && s'.path == s.path && s'.value == v
    ensures s.value == Unset ==> v == PathCost(s.path, dist)
    ensures s.value != Unset ==> v == s.value
    ensures v == FilledMemo(s, dist)
    ensures Memoised(s, dist) ==> v == PathCost(s.path, dist) && Memoised(s', dist)
  {
    if s.value != Unset {
      return s.value, s;
    }
    var pathCost := 0.0;
    var i := 0;
    while i < |s.path| - 1
      invariant 0 <= i <= |s.path|
      invariant |s.path| == 0 ==> pathCost == 0.0
      invariant |s.path| > 0 ==> i < |s.path| && pathCost == PathCost(s.path[..i + 1], dist)
    {
      assert s.path[..i + 2][..i + 1] == s.path[..i + 1];
      pathCost := pathCost + dist(s.path[i], s.path[i + 1]);
      i := i + 1;
    }
    assert |s.path| > 0 ==> s.path[..i + 1] == s.path;
    return pathCost, s.(value := pathCost);
  }

  /** A second `getValue` on the state the first one left behind returns the
      same cost: the memo, once filled, is read back unchanged, and a cost
      that happens to equal the sentinel is recomputed to the same value. */
  lemma FilledMemoStable(s: State, filled: State, dist: Distance)
    requires filled.path == s.path && filled.value == FilledMemo(s, dist)
    ensures FilledMemo(filled, dist) == FilledMemo(s, dist)
  {
  }

  // ---------------------------------------------------------------------------
  // Properties

  /** The successor of a goal state is a goal state. */
  lemma {:induction false} SuccessorPreservesGoal(s: State, draw1: int, draw2: int)
    requires |s.path| >= 4 ==> AcceptedDraws(|s.path|, draw1, draw2)
    requires IsGoalState(s) == Ok(true)
    ensures Successor(s, draw1, draw2).Some? ==> IsGoalState(Successor(s, draw1, draw2).value) == Ok(true)
  {
    if |s.path| >= 4 {
      var (p1, p2) := OrderPositions(draw1, draw2);
      TwoOptPreservesTour(s.helper.cities, s.helper.startCity, s.path, p1, p2);
    }
  }

  /** With a symmetric distance, the cost of a successor differs from the cost
      of its source only in the two legs at the ends of the reversed segment. */
  lemma {:induction false} SuccessorCostChange(s: State, draw1: int, draw2: int, dist: Distance)
    requires Symmetric(dist)
    requires |s.path| >= 4 && AcceptedDraws(|s.path|, draw1, draw2)
    ensures var (p1, p2) := OrderPositions(draw1, draw2);
            PathCost(Successor(s, draw1, draw2).value.path, dist)
              == PathCost(s.path, dist)
                 - dist(s.path[p1 - 1], s.path[p1]) - dist(s.path[p2], s.path[p2 + 1])
                 + dist(s.path[p1 - 1], s.path[p2]) + dist(s.path[p1], s.path[p2 + 1])
  {
    var (p1, p2) := OrderPositions(draw1, draw2);
    var next := Successor(s, draw1, draw2).value.path;
    assert next == TwoOpt(s.path, p1, p2);
    TwoOptCostChange(s.path, p1, p2, dist);
    assert PathCost(next, dist) == PathCost(TwoOpt(s.path, p1, p2), dist);
  }

  /** A goal state over an instance without repeated cities visits every city
      exactly once before returning to the start. */
  lemma {:induction false} GoalStateVisitsEachCityOnce(s: State)
    requires Distinct(s.helper.cities)
    requires IsGoalState(s) == Ok(true)
    ensures |s.path| == |s.helper.cities| + 1
    ensures Distinct(s.path[..|s.path| - 1])
    ensures forall c :: c in s.helper.cities <==> c in s.path[..|s.path| - 1]
  {
    TourVisitsEachCityOnce(s.helper.cities, s.helper.startCity, s.path);
  }

  /** Over an instance without repeated cities, `isGoalState` holds exactly
      when the path starts at the start city, returns to it, and visits every
      listed city exactly once in between. */
  lemma {:induction false} GoalStateIffVisitsEachCityOnce(s: State)
    requires Distinct(s.helper.cities)
    requires |s.path| > 0
    ensures IsGoalState(s) == Ok(true) <==>
              && s.path[0] == s.helper.startCity
              && s.path[|s.path| - 1] == s.helper.startCity
              && Distinct(s.path[..|s.path| - 1])
              && (forall c :: c in s.helper.cities <==> c in s.path[..|s.path| - 1])
  {
    var cities, start := s.helper.cities, s.helper.startCity;
    if IsGoalState(s) == Ok(true) {
      TourVisitsEachCityOnce(cities, start, s.path);
    }
    if && s.path[0] == start && s.path[|s.path| - 1] == start
       && Distinct(s.path[..|s.path| - 1])
       && (forall c :: c in cities <==> c in s.path[..|s.path| - 1])
    {
      VisitsEachCityOnceIsTour(cities, start, s.path);
    }
  }
}

=== FILE: types.dfy ===
/** Failure-carrying values for the parts of the solver that can return `None`
    or raise a Python exception. */
module Types {

  /** Python's `None`, or a present value. */
  datatype Option<+T> = None | Some(value: T)

  /** The Python exceptions the modelled code can raise on its own inputs. */
  datatype Error =
    | IndexError        // indexing an empty list
    | ValueError        // `list.remove` of an element that is not in the list
    | AttributeError    // calling a method on `None`
    | ZeroDivisionError // dividing by a temperature of zero

  /** A value, or the exception that prevented it. Usable with `:-`. */
  datatype Result<+T> = Ok(value: T) | Err(error: Error) {

    predicate IsFailure() {
      Err?
    }

    function PropagateFailure<U>(): Result<U>
      requires Err?
    {
      Err(error)
    }

    function Extract(): T
      requires Ok?
    {
      value
    }
  }
}
